=== FILE: README.md ===
# Affine 3x3 transforms and scene-graph traversal

This project models the transform algebra and scene-graph traversal of a small
real-time rendering demo, in Dafny, and proves properties of the model.

- `matrix3.dfy`, module `Matrix3`: the `GLMatrix3` value type. It is a 2D
  affine transform stored as nine scalars in column-major order: entry
  (row, col) sits at index `3 * col + row`. The model covers the setters
  (`setIdentity`, `setTranslation`, `setRotation`), the in-place helpers
  (`translate`, `scale`, `swap`, `transpose`) and the product (`operator*`,
  `operator*=`). The setters and helpers are pure functions that return the
  updated matrix. The two product operators are methods that run the source's
  loop with its flat index arithmetic (`a = i % 3`, `b = (i / 3) * 3`). They
  are proved equal to `Mul`, the row-times-column product that the rest of the
  model uses. Scalars are `real`, so every law holds exactly.
- `scene_graph.dfy`, module `SceneGraph`: the `SceneNode` tree. It is generic
  over the transform type `M` and its product `mul`. A node is a datatype with
  a local `transform` and an ordered sequence of owned children. `update(t)`
  and `draw(parent)` are modelled by trace functions. A trace lists, in call
  order, each node called (as its path of child indices from the root) and the
  argument that node receives. The properties are stated against independent
  definitions:
  - the set of valid paths (`IsPath`);
  - the lexicographic path order (`LexLess`), which on the paths of one tree
    is pre-order with siblings in insertion order;
  - the left-to-right product of the incoming transform and all ancestor
    transforms (`Received`, built from `Ancestors` and `FoldMul`).
- `scene_matrix3.dfy`, module `SceneMatrix3`: the scene graph instantiated
  with `Matrix3` and `Mul`.

`setRotation` computes `cos(theta)` and `sin(theta)`. The model takes them as
free inputs `c` and `s`. The pivot-fixing property holds for every `c` and
`s`, and distance preservation holds whenever `c*c + s*s == 1`.

Two helpers of `GLMatrix3` do less, or more, than their names suggest, and
the model follows the code:
- `transpose()` does not transpose: `swap`
  (Project/src/Seed_Main.cpp:46-51) takes its arguments by value, so nothing
  is exchanged (see Findings).
- `scale(sx, sy)` scales the first and second rows, translation terms
  included; this is left-multiplication by diag(sx, sy, 1)
  (`Matrix3.ScaleIsLeftMul`).

## Model

| member | source | states |
|---|---|---|
| Matrix3.Identity | Project/src/Seed_Main.cpp:12-16 | `setIdentity` yields an affine matrix. It fixes every homogeneous point and is a left and right unit of the product: `I*M == M` and `M*I == M` for every M. |
| Matrix3.IdentityIsUnit | Project/src/Seed_Main.cpp:12-16 | The nine entries `setIdentity` writes form a two-sided unit of `operator*`. |
| Matrix3.Translation | Project/src/Seed_Main.cpp:25-29 | `setTranslation` overwrites all nine entries with an affine matrix: bottom row [0,0,1]. |
| Matrix3.TranslationMovesPoints | Project/src/Seed_Main.cpp:25-29 | The translation by (x, y) maps (px, py, w) to (px + x*w, py + y*w, w). An affine point moves by exactly (x, y). |
| Matrix3.TranslationCompose | Project/src/Seed_Main.cpp:25-29 | `setTranslation(a1,a2) * setTranslation(b1,b2) == setTranslation(a1+b1, a2+b2)`. |
| Matrix3.Rotation | Project/src/Seed_Main.cpp:18-23 | For any c and s, `setRotation(x, y, theta)` has bottom row [0,0,1] and turns the offset of every affine point from the pivot (x, y) by [c -s; s c]; the image is again an affine point. |
| Matrix3.RotationTurnsUnitOffsets | Project/src/Seed_Main.cpp:18-23 | The pivot (x, y) stays fixed, and the points one unit right of and above it turn counter-clockwise, to pivot + (c, s) and pivot + (-s, c). |
| Matrix3.RotationIsConjugation | Project/src/Seed_Main.cpp:18-23 | The rotation about pivot (x, y) is translate(x,y) * R * translate(-x,-y), where R is the counter-clockwise rotation about the origin with upper-left block [c -s; s c]. |
| Matrix3.RotationKeepsDistance | Project/src/Seed_Main.cpp:18-23 | When c^2 + s^2 = 1, every affine point keeps its distance from the pivot. |
| Matrix3.Translate | Project/src/Seed_Main.cpp:31-34 | `translate(x,y)` adds x to entry 6 and y to entry 7, and the other seven entries are unchanged. |
| Matrix3.TranslateIsLeftMul | Project/src/Seed_Main.cpp:31-34 | On an affine matrix, `translate(x,y)` equals left-multiplication by `setTranslation(x,y)`. |
| Matrix3.Scale | Project/src/Seed_Main.cpp:36-44 | `scale(sx,sy)` multiplies entries 0, 3, 6 (first row, translation term included) by sx. It multiplies entries 1, 4, 7 by sy and leaves the bottom row 2, 5, 8 untouched. |
| Matrix3.ScaleIsLeftMul | Project/src/Seed_Main.cpp:36-44 | For every matrix, `scale(sx,sy)` equals left-multiplication by diag(sx, sy, 1). |
| Matrix3.HelpersPreserveAffine | Project/src/Seed_Main.cpp:31-44 | `translate` and `scale` keep an affine matrix affine. |
| Matrix3.Swap | Project/src/Seed_Main.cpp:46-51 | `swap` on two entries of a matrix leaves the caller's matrix unchanged; only its by-value copies end up exchanged. |
| Matrix3.Transpose | Project/src/Seed_Main.cpp:46-57 | Because `swap` works on by-value copies, `transpose()` leaves all nine entries as they were. |
| Matrix3.TransposeIsNotATranspose | Project/src/Seed_Main.cpp:53-57 | On `setTranslation(1, 0)`, the as-written `transpose()` differs from a real transpose. |
| Matrix3.TransposeFixed | Project/src/Seed_Main.cpp:53-57 | The corrected transpose exchanges pairs (3,1), (6,2) and (7,5), so entry (row, col) becomes entry (col, row). |
| Matrix3.TransposeFixedInvolution | Project/src/Seed_Main.cpp:53-57 | Applying the corrected transpose twice gives back the original matrix. |
| Matrix3.TransposeFixedReversesMul | Project/src/Seed_Main.cpp:53-57 | The corrected transpose reverses products: (AB)^T = B^T A^T. |
| Matrix3.MulOp | Project/src/Seed_Main.cpp:64-71 | `operator*` makes entry (row, col) the product of row `row` of the left operand and column `col` of the right operand. Its result equals `Mul`. |
| Matrix3.MulAssign | Project/src/Seed_Main.cpp:73-81 | After `m *= r`, m holds `old_m * r`, with every entry the row-times-column product. |
| Matrix3.MulEntries | Project/src/Seed_Main.cpp:64-71 | Every entry (row, col) of the product is row `row` of the left operand times column `col` of the right operand. |
| Matrix3.ApplyMul | Project/src/Seed_Main.cpp:64-71 | Applying `a * b` to a point is applying b, then a. The product composes transforms right to left. |
| Matrix3.MulPreservesAffine | Project/src/Seed_Main.cpp:64-71 | The product of two affine matrices is affine. |
| SceneGraph.NewNode | Project/src/Seed_Main.cpp:90-93 | A freshly constructed node has the identity transform and no children. |
| SceneGraph.FreshNodeTraces | Project/src/Seed_Main.cpp:90-106 | Drawing or updating a fresh node makes exactly one call, on the node itself. The transform it draws with is parent times identity. |
| SceneGraph.UpdateTrace | Project/src/Seed_Main.cpp:98-101 | `update(t)` is called on the node first, and every call in the traversal receives the same t. |
| SceneGraph.UpdateChildren | Project/src/Seed_Main.cpp:98-101 | The loop over children only calls proper descendants, each with the same t. |
| SceneGraph.UpdateVisitsAll | Project/src/Seed_Main.cpp:98-101 | A path occurs in the update trace if and only if it leads to a node of the tree. |
| SceneGraph.UpdateChildrenVisit | Project/src/Seed_Main.cpp:98-101 | The loop from child i calls exactly the nodes below children i, i+1, and so on. |
| SceneGraph.UpdatePreOrder | Project/src/Seed_Main.cpp:98-101 | The update trace's paths strictly increase in lexicographic order. Each node is called once, in pre-order, siblings in insertion order. |
| SceneGraph.UpdateChildrenPreOrder | Project/src/Seed_Main.cpp:98-101 | The calls made by the loop over children are in pre-order, siblings in insertion order. |
| SceneGraph.DrawTrace | Project/src/Seed_Main.cpp:94-96 | `draw(parent)` first calls the node itself with `parent`. |
| SceneGraph.DrawOrderIsUpdateOrder | Project/src/Seed_Main.cpp:94-106 | `draw` calls exactly the nodes `update` calls, in the same order. |
| SceneGraph.DrawChildrenOrder | Project/src/Seed_Main.cpp:103-106 | `drawChildren` from child i calls the same nodes in the same order as the update loop from child i. |
| SceneGraph.DrawReceivesAncestorProduct | Project/src/Seed_Main.cpp:94-106 | Every node reached by `draw(P)` receives P times all its ancestors' transforms, multiplied left to right. |
| SceneGraph.DrawChildrenReceive | Project/src/Seed_Main.cpp:103-106 | Every node below child k of `drawChildren(t)` receives t times the transforms on the path from child k down to it. |
| SceneGraph.ChildReceivesParentTimesTransform | Project/src/Seed_Main.cpp:94-96 | `draw(P)` calls every child i with exactly `P * transform`. |
| SceneGraph.SharedChildDrawnPerOccurrence | Project/src/Seed_Main.cpp:94-106 | A child held twice in one `children` list is drawn in full at both positions: every call its own `draw` makes appears under child 0 and under child 1, with the same argument. |
| SceneGraph.ChildReceivesParentEffective | Project/src/Seed_Main.cpp:94-106 | At any depth, a child receives exactly the transform its parent draws with, `received * transform`. |
| SceneMatrix3.FreshNodeIsNeutral | Project/src/Seed_Main.cpp:90-96 | With 3x3 matrices, a fresh node draws with exactly the transform it receives. |
| SceneMatrix3.TwoLevelTranslation | Project/src/Seed_Main.cpp:94-106 | A root translated by a with one child translated by b, drawn from the identity: the child receives translation a and draws with translation a + b. |

## Findings

| source | as written | input that shows it | evidently intended | confidence | as-written member | corrected member |
|---|---|---|---|---|---|---|
| Project/src/Seed_Main.cpp:46-57 | `swap(GLfloat a, GLfloat b)` takes its arguments by value, so `transpose()` exchanges only copies and leaves the matrix unchanged | `setTranslation(1, 0)` then `transpose()`: entry 6 stays 1 and entry 2 stays 0 | swap by reference, so that the pairs (3,1), (6,2) and (7,5) are exchanged and the matrix is transposed | high; not executed | Matrix3.Transpose, Matrix3.TransposeIsNotATranspose | Matrix3.TransposeFixed |

## Left out

- Floating-point rounding: scalars are `real`. The laws hold exactly here, but the 32-bit floats of the source meet them only approximately.
- `cos` and `sin` in `setRotation`: `c` and `s` are inputs, and `Matrix3.RotationKeepsDistance` requires `c*c + s*s == 1`.
- `operator=` (Project/src/Seed_Main.cpp:59-62) copies all nine scalars. Matrices are values in the model, so assignment already has that meaning.
- `GLMatrix4` and the pyramid leaf node are not part of this model. Their definitions are not in the modelled file, so `SceneGraph` is generic over the transform type. A derived node that overrides `draw` is represented by `SceneGraph.Effective`, the transform it would draw its geometry with.
- `SceneNode::setTransform` (Project/src/Seed_Main.cpp:108-110) is static but names the non-static member `UNIFORM_mvpMatrix`, so it does not compile as written. Apart from being set to identity in the constructor, that is the member's only use. Its intent, forwarding a matrix to the graphics API, has no behaviour to state.
- The destructor (Project/src/Seed_Main.cpp:112-113) does not free children. This is memory lifetime, which a datatype tree does not have.
- Cycles among `SceneNode` pointers: a node that is its own descendant makes `update` and `draw` recurse without bound in the source. A datatype tree cannot express a cycle, so this is not modelled.
- Shared children: a child pointer held by two parents, or twice in one `children` list, is visited once per occurrence (Project/src/Seed_Main.cpp:99-100, 104-105). Because the base traversals assign nothing, this is modelled by repeating the subtree value (`SceneGraph.SharedChildDrawnPerOccurrence`). Only the pointer identity of the shared node is left out.
- `initShader` and `main` (Project/src/Seed_Main.cpp:116-186): window, context and shader setup through the graphics API.
- The base `update` (Project/src/Seed_Main.cpp:98-101) assigns no field, so on an immutable `Node` value "it changes no node" holds by construction and only its trace is modelled (`SceneGraph.UpdateVisitsAll`, `SceneGraph.UpdatePreOrder`).
- Overrides of `update` in derived nodes: a derived node may mutate itself there, but no override is in the modelled file, so only the base class is modelled.

=== FILE: matrix3.dfy ===
/**
 A 3x3 affine-transform matrix stored as nine scalars in column-major order:
 entry (row, col) lives at index 3 * col + row, so indices 0-2 are the first
 column, 3-5 the second and 6-8 the third (the translation column).
 Scalars are mathematical reals, so every algebraic law below holds exactly.
 */
module Matrix3 {

  /** Nine scalars, column-major. */
  type Matrix3 = m: seq<real> | |m| == 9 witness [1.0, 0.0, 0.0, 0.0, 1.0, 0.0, 0.0, 0.0, 1.0]

  /** A point in homogeneous 2D coordinates (x, y, w). */
  datatype Point3 = Point3(x: real, y: real, w: real)

  /** Entry at (row, col) under the column-major layout. */
  function At(m: Matrix3, row: nat, col: nat): real
    requires row < 3 && col < 3
  {
    m[3 * col + row]
  }

  /** Row `row` of `a` times column `col` of `b`. */
  function Dot(a: Matrix3, b: Matrix3, row: nat, col: nat): real
    requires row < 3 && col < 3
  {
    At(a, row, 0) * At(b, 0, col) + At(a, row, 1) * At(b, 1, col) + At(a, row, 2) * At(b, 2, col)
  }

  /** The matrix product `a * b` as textbook row-times-column; the reference
      definition the rest of the model composes transforms with. */
  function Mul(a: Matrix3, b: Matrix3): (r: Matrix3)
  {
    [Dot(a, b, 0, 0), Dot(a, b, 1, 0), Dot(a, b, 2, 0),
     Dot(a, b, 0, 1), Dot(a, b, 1, 1), Dot(a, b, 2, 1),
     Dot(a, b, 0, 2), Dot(a, b, 1, 2), Dot(a, b, 2, 2)]
  }

  /** Every entry of `Mul(a, b)` is the matching row-times-column product. */
  lemma MulEntries(a: Matrix3, b: Matrix3)
    ensures forall row: nat, col: nat {:trigger At(Mul(a, b), row, col)} :: row < 3 && col < 3 ==>
              At(Mul(a, b), row, col) == Dot(a, b, row, col)
  {
    forall row: nat, col: nat | row < 3 && col < 3
      ensures At(Mul(a, b), row, col) == Dot(a, b, row, col)
    {
      var i := 3 * col + row;
      assert i % 3 == row && i / 3 == col;
    }
  }

  /** Flat entry i of `Mul(a, b)` is row i % 3 times column i / 3. */
  lemma MulIndex(a: Matrix3, b: Matrix3)
    ensures forall i :: 0 <= i < 9 ==> Mul(a, b)[i] == Dot(a, b, i % 3, i / 3)
  {
  }

  /** Two matrices that agree on all nine entries are equal. */
  lemma Entrywise(a: Matrix3, b: Matrix3)
    requires a[0] == b[0] && a[1] == b[1] && a[2] == b[2]
    requires a[3] == b[3] && a[4] == b[4] && a[5] == b[5]
    requires a[6] == b[6] && a[7] == b[7] && a[8] == b[8]
    ensures a == b
  {
  }

  /** Two matrices that agree at every (row, col) are equal. */
  lemma EntrywiseAt(a: Matrix3, b: Matrix3)
    requires forall row: nat, col: nat {:trigger At(a, row, col)} :: row < 3 && col < 3 ==> At(a, row, col) == At(b, row, col)
    ensures a == b
  {
    assert At(a, 0, 0) == At(b, 0, 0) && At(a, 1, 0) == At(b, 1, 0) && At(a, 2, 0) == At(b, 2, 0);
    assert At(a, 0, 1) == At(b, 0, 1) && At(a, 1, 1) == At(b, 1, 1) && At(a, 2, 1) == At(b, 2, 1);
    assert At(a, 0, 2) == At(b, 0, 2) && At(a, 1, 2) == At(b, 1, 2) && At(a, 2, 2) == At(b, 2, 2);
    Entrywise(a, b);
  }

  /** The bottom row of an affine transform is [0, 0, 1]. */
  predicate IsAffine(m: Matrix3)
  {
    m[2] == 0.0 && m[5] == 0.0 && m[8] == 1.0
  }

  /** Applies `m` to a homogeneous column vector. */
  function Apply(m: Matrix3, p: Point3): Point3
  {
    Point3(
      At(m, 0, 0) * p.x + At(m, 0, 1) * p.y + At(m, 0, 2) * p.w,
      At(m, 1, 0) * p.x + At(m, 1, 1) * p.y + At(m, 1, 2) * p.w,
      At(m, 2, 0) * p.x + At(m, 2, 1) * p.y + At(m, 2, 2) * p.w)
  }

  // ---------------------------------------------------------------------------
  // Constructors (the setters overwrite all nine entries)
  // ---------------------------------------------------------------------------

  /** `setIdentity`: the identity transform, a two-sided unit of `Mul`. */
  function Identity(): (r: Matrix3)
    ensures IsAffine(r)
    ensures forall p :: Apply(r, p) == p
    ensures forall m: Matrix3 :: Mul(r, m) == m && Mul(m, r) == m
  {
    var id: Matrix3 := [1.0, 0.0, 0.0, 0.0, 1.0, 0.0, 0.0, 0.0, 1.0];
    forall m: Matrix3 ensures Mul(id, m) == m && Mul(m, id) == m {
      IdentityIsUnit(id, m);
    }
    id
  }

  lemma IdentityIsUnit(id: Matrix3, m: Matrix3)
    requires id == [1.0, 0.0, 0.0, 0.0, 1.0, 0.0, 0.0, 0.0, 1.0]
    ensures Mul(id, m) == m && Mul(m, id) == m
  {
    MulEntries(id, m);
    MulEntries(m, id);
    EntrywiseAt(Mul(id, m), m);
    EntrywiseAt(Mul(m, id), m);
  }

  /** `setTranslation(x, y)`: a pure translation, moving every point by (x, y). */
  function Translation(x: real, y: real): (r: Matrix3)
    ensures IsAffine(r)
  {
    [1.0, 0.0, 0.0, 0.0, 1.0, 0.0, x, y, 1.0]
  }

  /** `setRotation(x, y, theta)` with c = cos(theta) and s = sin(theta) taken as
      inputs: for any c and s, an affine transform that turns the offset of every
      affine point from the pivot (x, y) by the block [c -s; s c]. */
  function Rotation(x: real, y: real, c: real, s: real): (r: Matrix3)
    ensures IsAffine(r)
    ensures forall p: Point3 {:trigger Apply(r, p)} :: p.w == 1.0 ==>
              Apply(r, p).x - x == c * (p.x - x) - s * (p.y - y) &&
              Apply(r, p).y - y == s * (p.x - x) + c * (p.y - y) &&
              Apply(r, p).w == 1.0
  {
    var r: Matrix3 := [c, s, 0.0, -s, c, 0.0, -c * x + s * y + x, -s * x - c * y + y, 1.0];
    forall p: Point3 | p.w == 1.0
      ensures Apply(r, p).x - x == c * (p.x - x) - s * (p.y - y)
      ensures Apply(r, p).y - y == s * (p.x - x) + c * (p.y - y)
      ensures Apply(r, p).w == 1.0
    {
      ApplyToAffinePoint(c, s, 0.0, -s, c, 0.0, -c * x + s * y + x, -s * x - c * y + y, 1.0, p);
      RotatedOffset(x, y, c, s, p.x, p.y);
    }
    r
  }

  /** The rotation keeps the pivot fixed and turns the unit offsets (1, 0) and
      (0, 1) from the pivot counter-clockwise, to (c, s) and (-s, c). */
  lemma RotationTurnsUnitOffsets(x: real, y: real, c: real, s: real)
    ensures Apply(Rotation(x, y, c, s), Point3(x, y, 1.0)) == Point3(x, y, 1.0)
    ensures Apply(Rotation(x, y, c, s), Point3(x + 1.0, y, 1.0)) == Point3(x + c, y + s, 1.0)
    ensures Apply(Rotation(x, y, c, s), Point3(x, y + 1.0, 1.0)) == Point3(x - s, y + c, 1.0)
  {
  }

  // ---------------------------------------------------------------------------
  // In-place helpers, as functions returning the updated matrix
  // ---------------------------------------------------------------------------

  /** `translate(x, y)`: adds (x, y) to the translation column; nothing else changes. */
  function Translate(m: Matrix3, x: real, y: real): (r: Matrix3)
    ensures r[6] == m[6] + x && r[7] == m[7] + y
    ensures forall i :: 0 <= i < 9 && i != 6 && i != 7 ==> r[i] == m[i]
  {
    m[6 := m[6] + x][7 := m[7] + y]
  }

  /** `scale(sx, sy)`: the first row, translation term included, is scaled by
      sx and the second row by sy; the bottom row is left alone. */
  function Scale(m: Matrix3, sx: real, sy: real): (r: Matrix3)
    ensures forall col: nat :: col < 3 ==> At(r, 0, col) == sx * At(m, 0, col)
    ensures forall col: nat :: col < 3 ==> At(r, 1, col) == sy * At(m, 1, col)
    ensures forall col: nat :: col < 3 ==> At(r, 2, col) == At(m, 2, col)
  {
    m[0 := m[0] * sx][3 := m[3] * sx][6 := m[6] * sx][1 := m[1] * sy][4 := m[4] * sy][7 := m[7] * sy]
  }

  /** The scaling matrix diag(sx, sy, 1); not part of the source, used as the
      reference `Scale` is compared against. */
  function Scaling(sx: real, sy: real): (r: Matrix3)
  {
    [sx, 0.0, 0.0, 0.0, sy, 0.0, 0.0, 0.0, 1.0]
  }

  /** `swap(a, b)` receives both arguments BY VALUE. Called on entries i and j
      of `m`, it leaves the caller's matrix as it was (the first component);
      only its own copies end up exchanged (the other two components). */
  function Swap(m: Matrix3, i: nat, j: nat): (r: (Matrix3, real, real))
    requires i < 9 && j < 9
    ensures r.0 == m
    ensures r.1 == m[j] && r.2 == m[i]
  {
    var a, b := m[i], m[j];
    var temp := a;
    var a' := b;
    var b' := temp;
    (m, a', b')
  }

  /** `transpose()` as written: three calls of `Swap` on the symmetric pairs,
      each handing back the caller's matrix untouched, so every entry keeps
      its value. */
  function Transpose(m: Matrix3): (r: Matrix3)
    ensures forall i :: 0 <= i < 9 ==> r[i] == m[i]
  {
    var m1 := Swap(m, 3, 1).0;
    var m2 := Swap(m1, 6, 2).0;
    Swap(m2, 7, 5).0
  }

  /** The transpose the swaps of `transpose()` evidently aim at: pairs (3, 1),
      (6, 2) and (7, 5) exchanged, i.e. entry (row, col) becomes (col, row). */
  function TransposeFixed(m: Matrix3): (r: Matrix3)
    ensures forall row: nat, col: nat {:trigger At(r, row, col)} :: row < 3 && col < 3 ==> At(r, row, col) == At(m, col, row)
  {
    [m[0], m[3], m[6], m[1], m[4], m[7], m[2], m[5], m[8]]
  }

  // ---------------------------------------------------------------------------
  // operator* and operator*=, as the source computes them
  // ---------------------------------------------------------------------------

  /** `operator*`: entry i is row i % 3 of the left operand times column i / 3
      of the right operand, computed with the source's flat index arithmetic. */
  method MulOp(lhs: Matrix3, rhs: Matrix3) returns (ret: Matrix3)
    ensures forall row: nat, col: nat {:trigger At(ret, row, col)} :: row < 3 && col < 3 ==>
              At(ret, row, col) == Dot(lhs, rhs, row, col)
    ensures ret == Mul(lhs, rhs)
  {
    var out := new real[9];
    var i := 0;
    while i < 9
      invariant 0 <= i <= 9
      invariant forall j :: 0 <= j < i ==> out[j] == Dot(lhs, rhs, j % 3, j / 3)
    {
      var a, b := i % 3, (i / 3) * 3;
      out[i] := lhs[a] * rhs[b] + lhs[a + 3] * rhs[b + 1] + lhs[a + 6] * rhs[b + 2];
      i := i + 1;
    }
    ret := out[..];
    SameAsMul(lhs, rhs, ret);
  }

  /** `operator*=`: the product is built in a temporary and then copied over
      the receiver; the receiver ends up equal to `old * rhs`. */
  method MulAssign(m: Matrix3, rhs: Matrix3) returns (m': Matrix3)
    ensures forall row: nat, col: nat {:trigger At(m', row, col)} :: row < 3 && col < 3 ==>
              At(m', row, col) == Dot(m, rhs, row, col)
    ensures m' == Mul(m, rhs)
  {
    var tmp := new real[9];
    var i := 0;
    while i < 9
      invariant 0 <= i <= 9
      invariant forall j :: 0 <= j < i ==> tmp[j] == Dot(m, rhs, j % 3, j / 3)
    {
      var a, b := i % 3, (i / 3) * 3;
      tmp[i] := m[a] * rhs[b] + m[a + 3] * rhs[b + 1] + m[a + 6] * rhs[b + 2];
      i := i + 1;
    }
    m' := tmp[..];
    SameAsMul(m, rhs, m');
  }

  /** A matrix whose flat entry i is row i % 3 of `a` times column i / 3 of `b`
      is `Mul(a, b)`. */
  lemma SameAsMul(a: Matrix3, b: Matrix3, r: Matrix3)
    requires forall j :: 0 <= j < 9 ==> r[j] == Dot(a, b, j % 3, j / 3)
    ensures r == Mul(a, b)
    ensures forall row: nat, col: nat {:trigger At(r, row, col)} :: row < 3 && col < 3 ==> At(r, row, col) == Dot(a, b, row, col)
  {
    MulIndex(a, b);
    MulEntries(a, b);
    assert forall j :: 0 <= j < 9 ==> r[j] == Mul(a, b)[j];
  }

  // ---------------------------------------------------------------------------
  // Laws
  // ---------------------------------------------------------------------------

  /** Composing two pure translations adds their offsets. */
  lemma TranslationCompose(a1: real, a2: real, b1: real, b2: real)
    ensures Mul(Translation(a1, a2), Translation(b1, b2)) == Translation(a1 + b1, a2 + b2)
  {
  }

  /** A pure translation moves every affine point (w = 1) by (x, y). */
  lemma TranslationMovesPoints(x: real, y: real, p: Point3)
    ensures Apply(Translation(x, y), p) == Point3(p.x + x * p.w, p.y + y * p.w, p.w)
  {
    var t := Translation(x, y);
    assert At(t, 0, 0) == 1.0 && At(t, 0, 1) == 0.0 && At(t, 0, 2) == x;
    assert At(t, 1, 0) == 0.0 && At(t, 1, 1) == 1.0 && At(t, 1, 2) == y;
    assert At(t, 2, 0) == 0.0 && At(t, 2, 1) == 0.0 && At(t, 2, 2) == 1.0;
  }

  /** On an affine matrix, `translate(x, y)` is left-multiplication by the
      translation (x, y): the translation is applied after `m`. */
  lemma TranslateIsLeftMul(m: Matrix3, x: real, y: real)
    requires IsAffine(m)
    ensures Translate(m, x, y) == Mul(Translation(x, y), m)
  {
  }

  /** For every matrix, `scale(sx, sy)` is left-multiplication by diag(sx, sy, 1);
      this is why the translation column is scaled too. */
  lemma ScaleIsLeftMul(m: Matrix3, sx: real, sy: real)
    ensures Scale(m, sx, sy) == Mul(Scaling(sx, sy), m)
  {
    var p := Mul(Scaling(sx, sy), m);
    var q := Scale(m, sx, sy);
    MulEntries(Scaling(sx, sy), m);
    forall i | 0 <= i < 9 ensures p[i] == q[i] {
      assert p[i] == At(p, i % 3, i / 3) && q[i] == At(q, i % 3, i / 3);
    }
  }

  /** The in-place helpers keep a matrix affine. */
  lemma HelpersPreserveAffine(m: Matrix3, x: real, y: real)
    requires IsAffine(m)
    ensures IsAffine(Translate(m, x, y)) && IsAffine(Scale(m, x, y))
  {
  }

  /** The product of two affine matrices is affine. */
  lemma MulPreservesAffine(a: Matrix3, b: Matrix3)
    requires IsAffine(a) && IsAffine(b)
    ensures IsAffine(Mul(a, b))
  {
  }

  /** Applying a product applies the right operand first: `Mul` is composition
      of the transforms, right to left. */
  lemma ApplyMul(a: Matrix3, b: Matrix3, p: Point3)
    ensures Apply(Mul(a, b), p) == Apply(a, Apply(b, p))
  {
    MulEntries(a, b);
    var q := Apply(b, p);
    var r := Apply(Mul(a, b), p);
    RowApply(a, b, p, 0);
    RowApply(a, b, p, 1);
    RowApply(a, b, p, 2);
    assert r.x == Dot(a, b, 0, 0) * p.x + Dot(a, b, 0, 1) * p.y + Dot(a, b, 0, 2) * p.w;
    assert r.y == Dot(a, b, 1, 0) * p.x + Dot(a, b, 1, 1) * p.y + Dot(a, b, 1, 2) * p.w;
    assert r.w == Dot(a, b, 2, 0) * p.x + Dot(a, b, 2, 1) * p.y + Dot(a, b, 2, 2) * p.w;
  }

  /** Row k of `a * b`, applied to `p`, is row k of `a` applied to `Apply(b, p)`. */
  lemma RowApply(a: Matrix3, b: Matrix3, p: Point3, k: nat)
    requires k < 3
    ensures Dot(a, b, k, 0) * p.x + Dot(a, b, k, 1) * p.y + Dot(a, b, k, 2) * p.w
         == At(a, k, 0) * Apply(b, p).x + At(a, k, 1) * Apply(b, p).y + At(a, k, 2) * Apply(b, p).w
  {
    Distribute(At(a, k, 0), At(a, k, 1), At(a, k, 2),
               At(b, 0, 0), At(b, 0, 1), At(b, 0, 2),
               At(b, 1, 0), At(b, 1, 1), At(b, 1, 2),
               At(b, 2, 0), At(b, 2, 1), At(b, 2, 2), p.x, p.y, p.w);
  }

  /** A row times a 3x3 block times a column, grouped either way. */
  lemma Distribute(r0: real, r1: real, r2: real,
                   b00: real, b01: real, b02: real,
                   b10: real, b11: real, b12: real,
                   b20: real, b21: real, b22: real,
                   px: real, py: real, pw: real)
    ensures (r0 * b00 + r1 * b10 + r2 * b20) * px + (r0 * b01 + r1 * b11 + r2 * b21) * py
          + (r0 * b02 + r1 * b12 + r2 * b22) * pw
         == r0 * (b00 * px + b01 * py + b02 * pw) + r1 * (b10 * px + b11 * py + b12 * pw)
          + r2 * (b20 * px + b21 * py + b22 * pw)
  {
  }

  /** The counter-clockwise rotation about the origin with cosine c and sine s:
      [c -s; s c] in the upper-left block. Not part of the source; the
      reference `Rotation` is compared against. */
  function OriginRotation(c: real, s: real): Matrix3
  {
    [c, s, 0.0, -s, c, 0.0, 0.0, 0.0, 1.0]
  }

  /** `setRotation` about a pivot equals translate-to-pivot after a rotation
      about the origin after translate-from-pivot. */
  lemma RotationIsConjugation(x: real, y: real, c: real, s: real)
    ensures Rotation(x, y, c, s) == Mul(Mul(Translation(x, y), OriginRotation(c, s)), Translation(-x, -y))
  {
    var r0 := OriginRotation(c, s);
    var tr: Matrix3 := [c, s, 0.0, -s, c, 0.0, x, y, 1.0];
    Entrywise(Mul(Translation(x, y), r0), tr);
    var p := Mul(tr, Translation(-x, -y));
    assert p[6] == c * -x + -s * -y + x;
    assert p[7] == s * -x + c * -y + y;
    Entrywise(p, Rotation(x, y, c, s));
  }

  /** With c = cos(theta), s = sin(theta) and c^2 + s^2 = 1, the rotation keeps
      every point at its distance from the pivot. */
  lemma RotationKeepsDistance(x: real, y: real, c: real, s: real, p: Point3)
    requires c * c + s * s == 1.0
    requires p.w == 1.0
    ensures var q := Apply(Rotation(x, y, c, s), p);
            (q.x - x) * (q.x - x) + (q.y - y) * (q.y - y) == (p.x - x) * (p.x - x) + (p.y - y) * (p.y - y)
  {
    TurnedOffsetNorm(x, y, c, s, p, Apply(Rotation(x, y, c, s), p));
  }

  /** A point q whose offset from the pivot is p's offset turned by [c -s; s c],
      with c^2 + s^2 = 1, is as far from the pivot as p. */
  lemma TurnedOffsetNorm(x: real, y: real, c: real, s: real, p: Point3, q: Point3)
    requires c * c + s * s == 1.0
    requires q.x - x == c * (p.x - x) - s * (p.y - y)
    requires q.y - y == s * (p.x - x) + c * (p.y - y)
    ensures (q.x - x) * (q.x - x) + (q.y - y) * (q.y - y) == (p.x - x) * (p.x - x) + (p.y - y) * (p.y - y)
  {
    RotatedOffsetNorm(c, s, p.x - x, p.y - y);
    SameNorm(q.x - x, q.y - y, c * (p.x - x) - s * (p.y - y), s * (p.x - x) + c * (p.y - y));
  }

  /** Equal offsets have equal squared lengths. */
  lemma SameNorm(a: real, b: real, a': real, b': real)
    requires a == a' && b == b'
    ensures a * a + b * b == a' * a' + b' * b'
  {
  }

  /** A matrix, given by its nine entries, applied to an affine point. */
  lemma ApplyToAffinePoint(m0: real, m1: real, m2: real, m3: real, m4: real, m5: real,
                           m6: real, m7: real, m8: real, p: Point3)
    requires p.w == 1.0
    ensures Apply([m0, m1, m2, m3, m4, m5, m6, m7, m8], p).x == m0 * p.x + m3 * p.y + m6
    ensures Apply([m0, m1, m2, m3, m4, m5, m6, m7, m8], p).y == m1 * p.x + m4 * p.y + m7
    ensures Apply([m0, m1, m2, m3, m4, m5, m6, m7, m8], p).w == m2 * p.x + m5 * p.y + m8
  {
  }

  /** The rotation's entries, applied to (px, py, 1), turn the offset from the pivot. */
  lemma RotatedOffset(x: real, y: real, c: real, s: real, px: real, py: real)
    ensures c * px + -s * py + (-c * x + s * y + x) - x == c * (px - x) - s * (py - y)
    ensures s * px + c * py + (-s * x - c * y + y) - y == s * (px - x) + c * (py - y)
  {
  }

  /** Turning the offset (dx, dy) by the block [c -s; s c] with c^2 + s^2 = 1
      keeps its squared length. */
  lemma RotatedOffsetNorm(c: real, s: real, dx: real, dy: real)
    requires c * c + s * s == 1.0
    ensures (c * dx - s * dy) * (c * dx - s * dy) + (s * dx + c * dy) * (s * dx + c * dy) == dx * dx + dy * dy
  {
    calc {
      (c * dx - s * dy) * (c * dx - s * dy) + (s * dx + c * dy) * (s * dx + c * dy);
      (c * c + s * s) * (dx * dx) + (c * c + s * s) * (dy * dy);
      dx * dx + dy * dy;
    }
  }

  /** `transpose()` as written does not transpose: a translation keeps its
      offset in the third column instead of moving it to the bottom row. */
  lemma TransposeIsNotATranspose()
    ensures Transpose(Translation(1.0, 0.0)) != TransposeFixed(Translation(1.0, 0.0))
  {
  }

  /** The corrected transpose is an involution. */
  lemma TransposeFixedInvolution(a: Matrix3)
    ensures TransposeFixed(TransposeFixed(a)) == a
  {
    Entrywise(TransposeFixed(TransposeFixed(a)), a);
  }

  /** The corrected transpose reverses products: (a * b)^T = b^T * a^T. */
  lemma TransposeFixedReversesMul(a: Matrix3, b: Matrix3)
    ensures TransposeFixed(Mul(a, b)) == Mul(TransposeFixed(b), TransposeFixed(a))
  {
    var l := TransposeFixed(Mul(a, b));
    var r := Mul(TransposeFixed(b), TransposeFixed(a));
    assert l[0] == r[0] && l[1] == r[1] && l[2] == r[2];
    assert l[3] == r[3] && l[4] == r[4] && l[5] == r[5];
    assert l[6] == r[6] && l[7] == r[7] && l[8] == r[8];
    Entrywise(l, r);
  }
}

=== FILE: scene_graph.dfy ===
/**
 The scene graph: a tree of nodes, each holding a local transform and an
 ordered list of children that it owns exclusively. The tree is generic over
 the transform type `M` and its product `mul`, so any matrix type with a
 multiplication can be plugged in.

 A traversal is modelled by its trace: the calls it makes, in order, each
 naming the node called (by its path of child indices from the root) and the
 argument that node receives.
 */
module SceneGraph {

  /** Child indices from the root; the root itself is []. */
  type Path = seq<nat>

  datatype Node<M> = Node(transform: M, children: seq<Node<M>>)

  /** One call of `update` or `draw`: the node called and what it receives. */
  datatype Call<A> = Call(path: Path, arg: A)

  // ---------------------------------------------------------------------------
  // Paths and their order
  // ---------------------------------------------------------------------------

  /** `p` leads from `n` to one of its descendants (or to `n` itself). */
  predicate IsPath<M>(n: Node<M>, p: Path)
    decreases p
  {
    |p| == 0 || (p[0] < |n.children| && IsPath(n.children[p[0]], p[1..]))
  }

  /** The node `p` leads to. */
  function NodeAt<M>(n: Node<M>, p: Path): Node<M>
    requires IsPath(n, p)
    decreases p
  {
    if |p| == 0 then n else NodeAt(n.children[p[0]], p[1..])
  }

  /** Lexicographic order on paths, where a path comes before its extensions.
      On the paths of one tree this is exactly pre-order with siblings taken
      in insertion order. */
  predicate LexLess(p: Path, q: Path)
    decreases |p|
  {
    if |p| == 0 then |q| > 0
    else if |q| == 0 then false
    else p[0] < q[0] || (p[0] == q[0] && LexLess(p[1..], q[1..]))
  }

  predicate StrictlyIncreasing(ps: seq<Path>)
  {
    forall a, b :: 0 <= a < b < |ps| ==> LexLess(ps[a], ps[b])
  }

  /** The paths of a trace, in call order. */
  function Paths<A>(cs: seq<Call<A>>): seq<Path>
  {
    seq(|cs|, k requires 0 <= k < |cs| => cs[k].path)
  }

  /** A child's trace seen from its parent: every path gains the child's index. */
  function Under<A>(i: nat, cs: seq<Call<A>>): seq<Call<A>>
  {
    seq(|cs|, k requires 0 <= k < |cs| => Call([i] + cs[k].path, cs[k].arg))
  }

  function Prefixed(i: nat, ps: seq<Path>): seq<Path>
  {
    seq(|ps|, k requires 0 <= k < |ps| => [i] + ps[k])
  }

  // ---------------------------------------------------------------------------
  // Operations
  // ---------------------------------------------------------------------------

  /** The constructor: a fresh node has the identity transform and no children. */
  function NewNode<M>(identity: M): (r: Node<M>)
    ensures r.transform == identity && r.children == []
  {
    Node(identity, [])
  }

  /** The calls `update(t)` on `n` makes: `n` itself, then each child's
      `update(t)` in insertion order. Every call receives the same `t`. */
  function UpdateTrace<M>(n: Node<M>, t: real): (r: seq<Call<real>>)
    ensures |r| > 0 && r[0].path == []
    ensures forall k :: 0 <= k < |r| ==> r[k].arg == t
    decreases n, 1
  {
    [Call([], t)] + UpdateChildren(n, t, 0)
  }

  /** The calls made by the loop of `update` over children i, i+1, .... */
  function UpdateChildren<M>(n: Node<M>, t: real, i: nat): (r: seq<Call<real>>)
    requires i <= |n.children|
    ensures forall k :: 0 <= k < |r| ==> r[k].arg == t && |r[k].path| > 0
    decreases n, 0, |n.children| - i
  {
    if i == |n.children| then []
    else Under(i, UpdateTrace(n.children[i], t)) + UpdateChildren(n, t, i + 1)
  }

  /** The calls `draw(parent)` on `n` makes: `n` receives `parent`, then
      `drawChildren(mul(parent, n.transform))` runs. */
  function DrawTrace<M>(n: Node<M>, parent: M, mul: (M, M) -> M): (r: seq<Call<M>>)
    ensures |r| > 0 && r[0] == Call([], parent)
    decreases n, 1
  {
    [Call([], parent)] + DrawChildren(n, mul(parent, n.transform), mul, 0)
  }

  /** `drawChildren(t)`: children i, i+1, ... are drawn in order, each with `t`. */
  function DrawChildren<M>(n: Node<M>, t: M, mul: (M, M) -> M, i: nat): (r: seq<Call<M>>)
    requires i <= |n.children|
    decreases n, 0, |n.children| - i
  {
    if i == |n.children| then []
    else Under(i, DrawTrace(n.children[i], t, mul)) + DrawChildren(n, t, mul, i + 1)
  }

  // ---------------------------------------------------------------------------
  // Reference definitions of what a node receives
  // ---------------------------------------------------------------------------

  /** The transforms of the strict ancestors of the node at `p`, root first. */
  function Ancestors<M>(n: Node<M>, p: Path): seq<M>
    requires IsPath(n, p)
    decreases p
  {
    if |p| == 0 then [] else [n.transform] + Ancestors(n.children[p[0]], p[1..])
  }

  /** The left-to-right product acc * ts[0] * ts[1] * ... . */
  function FoldMul<M>(mul: (M, M) -> M, acc: M, ts: seq<M>): M
    decreases |ts|
  {
    if |ts| == 0 then acc else FoldMul(mul, mul(acc, ts[0]), ts[1..])
  }

  /** What the node at `p` should receive from `draw(parent)` on the root:
      `parent` times all its ancestors' transforms, left to right. */
  function Received<M>(n: Node<M>, parent: M, mul: (M, M) -> M, p: Path): M
    requires IsPath(n, p)
  {
    FoldMul(mul, parent, Ancestors(n, p))
  }

  /** The transform a node at `p` would draw its own geometry with. */
  function Effective<M>(n: Node<M>, parent: M, mul: (M, M) -> M, p: Path): M
    requires IsPath(n, p)
  {
    mul(Received(n, parent, mul, p), NodeAt(n, p).transform)
  }

  // ---------------------------------------------------------------------------
  // Trace algebra
  // ---------------------------------------------------------------------------

  lemma PathsConcat<A>(a: seq<Call<A>>, b: seq<Call<A>>)
    ensures Paths(a + b) == Paths(a) + Paths(b)
  {
  }

  lemma PathsUnder<A>(i: nat, cs: seq<Call<A>>)
    ensures Paths(Under(i, cs)) == Prefixed(i, Paths(cs))
  {
  }

  /** The paths under child i are exactly i followed by a path of the child's trace. */
  lemma PrefixedMembers(i: nat, ps: seq<Path>)
    ensures forall p :: p in Prefixed(i, ps) <==> |p| > 0 && p[0] == i && p[1..] in ps
  {
    forall p | |p| > 0 && p[0] == i && p[1..] in ps ensures p in Prefixed(i, ps) {
      var k :| 0 <= k < |ps| && ps[k] == p[1..];
      assert Prefixed(i, ps)[k] == p;
    }
  }

  lemma LexLessUnder(i: nat, p: Path, q: Path)
    ensures LexLess([i] + p, [i] + q) == LexLess(p, q)
  {
    assert ([i] + p)[1..] == p;
    assert ([i] + q)[1..] == q;
  }

  lemma PrefixedIncreasing(i: nat, ps: seq<Path>)
    requires StrictlyIncreasing(ps)
    ensures StrictlyIncreasing(Prefixed(i, ps))
  {
    forall a, b | 0 <= a < b < |ps| ensures LexLess(Prefixed(i, ps)[a], Prefixed(i, ps)[b]) {
      LexLessUnder(i, ps[a], ps[b]);
    }
  }

  lemma ConcatIncreasing(a: seq<Path>, b: seq<Path>)
    requires StrictlyIncreasing(a) && StrictlyIncreasing(b)
    requires forall x, y :: x in a && y in b ==> LexLess(x, y)
    ensures StrictlyIncreasing(a + b)
  {
    forall i, j | 0 <= i < j < |a + b| ensures LexLess((a + b)[i], (a + b)[j]) {
      if j < |a| {
      } else if i < |a| {
        assert (a + b)[i] in a && (a + b)[j] in b;
      } else {
        assert (a + b)[i] == b[i - |a|] && (a + b)[j] == b[j - |a|];
      }
    }
  }

  // ---------------------------------------------------------------------------
  // Properties of update
  // ---------------------------------------------------------------------------

  /** `update` reaches every node of the tree and nothing else. */
  lemma {:induction false} UpdateVisitsAll<M>(n: Node<M>, t: real)
    ensures forall p :: p in Paths(UpdateTrace(n, t)) <==> IsPath(n, p)
    decreases n, 1
  {
    UpdateChildrenVisit(n, t, 0);
    PathsConcat([Call([], t)], UpdateChildren(n, t, 0));
  }

  lemma {:induction false} UpdateChildrenVisit<M>(n: Node<M>, t: real, i: nat)
    requires i <= |n.children|
    ensures forall p :: p in Paths(UpdateChildren(n, t, i)) <==>
              (|p| > 0 && i <= p[0] < |n.children| && IsPath(n.children[p[0]], p[1..]))
    decreases n, 0, |n.children| - i
  {
    if i < |n.children| {
      var sub := UpdateTrace(n.children[i], t);
      UpdateVisitsAll(n.children[i], t);
      UpdateChildrenVisit(n, t, i + 1);
      PathsConcat(Under(i, sub), UpdateChildren(n, t, i + 1));
      PathsUnder(i, sub);
      PrefixedMembers(i, Paths(sub));
    }
  }

  /** `update` calls the nodes in pre-order, siblings in insertion order, each
      exactly once: its paths strictly increase in lexicographic order. */
  lemma {:induction false} UpdatePreOrder<M>(n: Node<M>, t: real)
    ensures StrictlyIncreasing(Paths(UpdateTrace(n, t)))
    decreases n, 1
  {
    var rest := UpdateChildren(n, t, 0);
    UpdateChildrenPreOrder(n, t, 0);
    PathsConcat([Call([], t)], rest);
    assert forall y :: y in Paths(rest) ==> LexLess([], y);
    ConcatIncreasing([[]], Paths(rest));
  }

  lemma {:induction false} UpdateChildrenPreOrder<M>(n: Node<M>, t: real, i: nat)
    requires i <= |n.children|
    ensures StrictlyIncreasing(Paths(UpdateChildren(n, t, i)))
    decreases n, 0, |n.children| - i
  {
    if i < |n.children| {
      var sub := UpdateTrace(n.children[i], t);
      var first := Paths(Under(i, sub));
      var rest := Paths(UpdateChildren(n, t, i + 1));
      UpdatePreOrder(n.children[i], t);
      UpdateChildrenPreOrder(n, t, i + 1);
      PathsUnder(i, sub);
      PrefixedIncreasing(i, Paths(sub));
      PrefixedMembers(i, Paths(sub));
      UpdateChildrenVisit(n, t, i + 1);
      forall x, y | x in first && y in rest ensures LexLess(x, y) {
        assert x[0] == i < y[0];
      }
      ConcatIncreasing(first, rest);
      PathsConcat(Under(i, sub), UpdateChildren(n, t, i + 1));
    }
  }

  // ---------------------------------------------------------------------------
  // Properties of draw
  // ---------------------------------------------------------------------------

  /** `draw` calls the same nodes in the same order as `update`. */
  lemma {:induction false} DrawOrderIsUpdateOrder<M>(n: Node<M>, parent: M, mul: (M, M) -> M, t: real)
    ensures Paths(DrawTrace(n, parent, mul)) == Paths(UpdateTrace(n, t))
    decreases n, 1
  {
    DrawChildrenOrder(n, mul(parent, n.transform), mul, t, 0);
    PathsConcat([Call([], parent)], DrawChildren(n, mul(parent, n.transform), mul, 0));
    PathsConcat([Call([], t)], UpdateChildren(n, t, 0));
  }

  lemma {:induction false} DrawChildrenOrder<M>(n: Node<M>, tr: M, mul: (M, M) -> M, t: real, i: nat)
    requires i <= |n.children|
    ensures Paths(DrawChildren(n, tr, mul, i)) == Paths(UpdateChildren(n, t, i))
    decreases n, 0, |n.children| - i
  {
    if i < |n.children| {
      var d := DrawTrace(n.children[i], tr, mul);
      var u := UpdateTrace(n.children[i], t);
      DrawOrderIsUpdateOrder(n.children[i], tr, mul, t);
      DrawChildrenOrder(n, tr, mul, t, i + 1);
      PathsUnder(i, d);
      PathsUnder(i, u);
      PathsConcat(Under(i, d), DrawChildren(n, tr, mul, i + 1));
      PathsConcat(Under(i, u), UpdateChildren(n, t, i + 1));
    }
  }

  /** Every node called by `draw(parent)` receives `parent` times the
      transforms of all its ancestors, left to right. */
  lemma {:induction false} DrawReceivesAncestorProduct<M>(n: Node<M>, parent: M, mul: (M, M) -> M)
    ensures forall c :: c in DrawTrace(n, parent, mul) ==>
              IsPath(n, c.path) && c.arg == Received(n, parent, mul, c.path)
    decreases n, 1
  {
    var tr := mul(parent, n.transform);
    DrawChildrenReceive(n, tr, mul, 0);
    forall c | c in DrawTrace(n, parent, mul)
      ensures IsPath(n, c.path) && c.arg == Received(n, parent, mul, c.path)
    {
      if c !in DrawChildren(n, tr, mul, 0) {
        assert c == Call([], parent);
      } else {
        var p := c.path;
        assert ([n.transform] + Ancestors(n.children[p[0]], p[1..]))[1..] == Ancestors(n.children[p[0]], p[1..]);
      }
    }
  }

  lemma {:induction false} DrawChildrenReceive<M>(n: Node<M>, tr: M, mul: (M, M) -> M, i: nat)
    requires i <= |n.children|
    ensures forall c :: c in DrawChildren(n, tr, mul, i) ==>
              |c.path| > 0 && i <= c.path[0] < |n.children|
              && IsPath(n.children[c.path[0]], c.path[1..])
              && c.arg == Received(n.children[c.path[0]], tr, mul, c.path[1..])
    decreases n, 0, |n.children| - i
  {
    if i < |n.children| {
      var sub := DrawTrace(n.children[i], tr, mul);
      DrawReceivesAncestorProduct(n.children[i], tr, mul);
      DrawChildrenReceive(n, tr, mul, i + 1);
      forall c | c in Under(i, sub)
        ensures |c.path| > 0 && c.path[0] == i && IsPath(n.children[i], c.path[1..])
                && c.arg == Received(n.children[i], tr, mul, c.path[1..])
      {
        var k :| 0 <= k < |sub| && Under(i, sub)[k] == c;
        assert c.path[1..] == sub[k].path;
        assert sub[k] in sub;
      }
    }
  }

  /** `draw(parent)` hands every child exactly `mul(parent, transform)`. */
  lemma ChildReceivesParentTimesTransform<M>(n: Node<M>, parent: M, mul: (M, M) -> M, i: nat)
    requires i < |n.children|
    ensures Call([i], mul(parent, n.transform)) in DrawTrace(n, parent, mul)
  {
    var t: real := 0.0;
    var tr := DrawTrace(n, parent, mul);
    assert [i][1..] == [];
    assert IsPath(n, [i]);
    UpdateVisitsAll(n, t);
    DrawOrderIsUpdateOrder(n, parent, mul, t);
    assert [i] in Paths(tr);
    var k :| 0 <= k < |tr| && Paths(tr)[k] == [i];
    DrawReceivesAncestorProduct(n, parent, mul);
    assert tr[k] in tr;
    assert Ancestors(n, [i]) == [n.transform];
    assert FoldMul(mul, parent, [n.transform]) == mul(parent, n.transform) by {
      assert [n.transform][1..] == [];
    }
    assert tr[k] == Call([i], mul(parent, n.transform));
  }

  /** A child held twice in one `children` list is drawn once per occurrence:
      every call its own `draw` makes appears under both positions, with the
      same argument. Shared children are thus modelled by repeating the subtree. */
  lemma SharedChildDrawnPerOccurrence<M>(t: M, c: Node<M>, parent: M, mul: (M, M) -> M)
    ensures var sub := DrawTrace(c, mul(parent, t), mul);
            var tr := DrawTrace(Node(t, [c, c]), parent, mul);
            forall k :: 0 <= k < |sub| ==>
              Call([0] + sub[k].path, sub[k].arg) in tr && Call([1] + sub[k].path, sub[k].arg) in tr
  {
    var sub := DrawTrace(c, mul(parent, t), mul);
    var tr := DrawTrace(Node(t, [c, c]), parent, mul);
    TwoChildTrace(t, c, parent, mul);
    forall k | 0 <= k < |sub|
      ensures Call([0] + sub[k].path, sub[k].arg) in tr && Call([1] + sub[k].path, sub[k].arg) in tr
    {
      assert tr[1 + k] == Call([0] + sub[k].path, sub[k].arg);
      assert tr[1 + |sub| + k] == Call([1] + sub[k].path, sub[k].arg);
    }
  }

  /** The draw trace of a node whose two children are the same subtree. */
  lemma TwoChildTrace<M>(t: M, c: Node<M>, parent: M, mul: (M, M) -> M)
    ensures var sub := DrawTrace(c, mul(parent, t), mul);
            DrawTrace(Node(t, [c, c]), parent, mul) == [Call([], parent)] + (Under(0, sub) + Under(1, sub))
  {
    var n := Node(t, [c, c]);
    var sub := DrawTrace(c, mul(parent, t), mul);
    assert DrawChildren(n, mul(parent, t), mul, 2) == [];
    assert n.children[0] == c && n.children[1] == c && n.transform == t;
    assert DrawChildren(n, mul(parent, t), mul, 1) == Under(1, sub);
  }

  /** Extending a path by one child appends the parent's transform to the
      ancestor list. */
  lemma {:induction false} AncestorsSnoc<M>(n: Node<M>, p: Path, i: nat)
    requires IsPath(n, p) && i < |NodeAt(n, p).children|
    ensures IsPath(n, p + [i])
    ensures NodeAt(n, p + [i]) == NodeAt(n, p).children[i]
    ensures Ancestors(n, p + [i]) == Ancestors(n, p) + [NodeAt(n, p).transform]
    decreases p
  {
    if |p| == 0 {
      assert p + [i] == [i] && [i][1..] == [];
    } else {
      assert (p + [i])[0] == p[0] && (p + [i])[1..] == p[1..] + [i];
      AncestorsSnoc(n.children[p[0]], p[1..], i);
    }
  }

  /** Folding one more factor multiplies it onto the right. */
  lemma {:induction false} FoldMulSnoc<M>(mul: (M, M) -> M, acc: M, ts: seq<M>, x: M)
    ensures FoldMul(mul, acc, ts + [x]) == mul(FoldMul(mul, acc, ts), x)
    decreases |ts|
  {
    if |ts| == 0 {
      assert ts + [x] == [x] && [x][1..] == [];
    } else {
      assert (ts + [x])[0] == ts[0] && (ts + [x])[1..] == ts[1..] + [x];
      FoldMulSnoc(mul, mul(acc, ts[0]), ts[1..], x);
    }
  }

  /** Each child receives exactly the transform its parent draws with. */
  lemma ChildReceivesParentEffective<M>(n: Node<M>, parent: M, mul: (M, M) -> M, p: Path, i: nat)
    requires IsPath(n, p) && i < |NodeAt(n, p).children|
    ensures IsPath(n, p + [i])
    ensures Received(n, parent, mul, p + [i]) == Effective(n, parent, mul, p)
  {
    AncestorsSnoc(n, p, i);
    FoldMulSnoc(mul, parent, Ancestors(n, p), NodeAt(n, p).transform);
  }

  /** A fresh node, drawn or updated, makes exactly one call: on itself. */
  lemma FreshNodeTraces<M>(identity: M, parent: M, mul: (M, M) -> M, t: real)
    ensures DrawTrace(NewNode(identity), parent, mul) == [Call([], parent)]
    ensures UpdateTrace(NewNode(identity), t) == [Call([], t)]
    ensures Effective(NewNode(identity), parent, mul, []) == mul(parent, identity)
  {
  }
}

=== FILE: scene_matrix3.dfy ===
/**
 The scene graph instantiated with the 3x3 affine matrices and their product,
 checking the traversal against the concrete transform algebra.
 */
module SceneMatrix3 {
  import opened Matrix3
  import opened SceneGraph

  /** A fresh node passes the incoming transform through unchanged. */
  lemma FreshNodeIsNeutral(parent: Matrix3)
    ensures DrawTrace(NewNode(Identity()), parent, Mul) == [Call([], parent)]
    ensures Effective(NewNode(Identity()), parent, Mul, []) == parent
  {
    FreshNodeTraces(Identity(), parent, Mul, 0.0);
  }

  /** A root translated by (a1, a2) with one child translated by (b1, b2),
      drawn from the identity: the root is called with the identity, the child
      with the root's translation, and the child draws with the translation by
      (a1 + b1, a2 + b2). */
  lemma TwoLevelTranslation(a1: real, a2: real, b1: real, b2: real)
    ensures var child := Node(Translation(b1, b2), []);
            var root := Node(Translation(a1, a2), [child]);
            && DrawTrace(root, Identity(), Mul) == [Call([], Identity()), Call([0], Translation(a1, a2))]
            && IsPath(root, [0])
            && Effective(root, Identity(), Mul, [0]) == Translation(a1 + b1, a2 + b2)
  {
    var child := Node(Translation(b1, b2), []);
    var root := Node(Translation(a1, a2), [child]);
    var t := Translation(a1, a2);
    assert Mul(Identity(), t) == t;
    assert DrawTrace(child, t, Mul) == [Call([], t)];
    assert [0] + [] == [0];
    assert Under(0, [Call([], t)])[0] == Call([0], t);
    assert Under(0, [Call([], t)]) == [Call([0], t)];
    assert DrawChildren(root, t, Mul, 1) == [];
    assert DrawChildren(root, t, Mul, 0) == [Call([0], t)];
    assert [0][1..] == [];
    assert IsPath(root, [0]);
    assert Ancestors(root, [0]) == [t];
    assert Received(root, Identity(), Mul, [0]) == t by {
      assert [t][1..] == [];
      assert FoldMul(Mul, Identity(), [t]) == FoldMul(Mul, Mul(Identity(), t), []);
    }
    assert NodeAt(root, [0]) == child;
    TranslationCompose(a1, a2, b1, b2);
  }
}
